=== FILE: README.md ===
# ecspi control logic in Dafny

A model of the control logic of `ecspi`, a Linux kernel driver that
periodically sends a fixed test message over an SPI bus. A high-resolution
timer fires at a configured frequency. On each tick the driver either
dispatches a two-transfer SPI message asynchronously or, when the previous
message has not completed yet, counts a busy tick. The SPI completion
callback clears the busy flag and counts completions. A character device
accepts `start` / `stop` commands and reports
`"<Running|Stopped>|<completions>|<busy ticks>\n"`.

The model is functional. Each handler is a pure function from the driver
state to the new state and its return value. `Trace` composes the handlers
with their environment into a transition system. The environment is the timer
core (armed or not), the bus controller (messages accepted but not yet
completed), the user and the bus binding. Any interleaving of those contexts
is then a sequence of atomic events.

Modules:

- `Words`: `byte` and `u32`. `u32` increments wrap modulo 2^32, and stores into a byte truncate.
- `Wrappers`: `Option`, for the possibly absent device and for parse results.
- `Ascii`: the kernel's `tolower` and `strnicmp`. Both are kernel library code outside ecspi.c. `Ascii.Strnicmp` follows lib/string.c `strnicmp`, and `Ascii.ToLower` follows the Latin-1 table of lib/ctype.c.
- `Decimal`: `%u` numerals and their canonical reading back.
- `Frequency`: the `write_frequency` range check and the timer period.
- `SpiMessage`: the 512-byte fill pattern and the two 192-byte transfers.
- `Command`: the write side's command recognition over at most 8 copied bytes.
- `StatusLine`: the status line and a parser that inverts it.
- `Driver`: the state and the handlers `CompletionHandler`, `QueueSpiWrite`, `TimerCallback`, `Write`, `Read`, `Probe` and `Remove`.
- `Trace`: events, the reachable-state invariant and the scenarios.

A failed dispatch does not fully stop the driver. When the submission fails,
`ecspi_timer_callback` returns NORESTART (ecspi.c:135-136), so the timer is not
re-armed, but `running` stays set. After a "start" with no device bound, the
status therefore keeps reading "Running", and a further "start" is refused as
already running until a "stop" is written. `Trace.StartWithoutDevice` states
this outcome.

`Trace.Step` is the model of the environment. It fixes what the handlers'
return values and timer calls mean:
- The timer fires only while armed. After a tick it stays armed exactly when
  the callback returned RESTART (ecspi.c:128, 136, 144).
- `hrtimer_start` in "start" arms the timer (ecspi.c:224), and `hrtimer_cancel`
  in "stop" and in unbind disarms it (ecspi.c:232, 281).
- A completion can arrive only for a message the bus accepted.
- Bind and unbind can happen at any time. Loading the driver performs the
  first bind itself (ecspi.c:470, via `spi_register_driver` and
  `add_ecspi_device_to_bus`); in a trace that bind is an explicit `Bind` event
  after `Trace.Init`.

## Model

| member | source | states |
|---|---|---|
| Words.Inc | ecspi.c:78 | a `u32` counter increment is +1 modulo 2^32 |
| Words.TruncateToByte | ecspi.c:95 | storing an int index into a `u8` keeps it modulo 256 |
| Ascii.ToLower | ecspi.c:210 | folding yields no capital, changes a byte only if it is a capital (by +0x20), and maps only NUL to NUL |
| Ascii.Strnicmp | ecspi.c:210 | the bounded case-insensitive comparison's result is a byte difference in [-255, 255] |
| Ascii.StrnicmpZeroIff | ecspi.c:210 | against a pattern with no NUL, the comparison reports a match iff the first `len` bytes agree after folding |
| Decimal.Format | ecspi.c:162-166 | `%u` output is a non-empty digit string with no leading zero, beginning with '0' iff the number is 0 |
| Decimal.ParseFormat | ecspi.c:162-166 | reading a `%u` numeral back gives the number written |
| Decimal.FormatParse | ecspi.c:162-166 | every numeral the reader accepts is exactly the `%u` output of its value |
| Decimal.FormatLength | ecspi.c:162-166 | a number below 10^k prints in at most k digits |
| Frequency.Clamp | ecspi.c:474-479 | an in-range frequency (1..10000 Hz) is kept; any other becomes the default 100 Hz |
| Frequency.TimerPeriod | ecspi.c:481-484 | the stored period is always 10^9 / f ns (f clamped), normalised (ns < 10^9; 1 Hz as 1 s 0 ns, otherwise 0 s), between 100 us and 1 s |
| Frequency.PeriodAntitone | ecspi.c:481-484 | a higher in-range frequency never gives a longer period |
| Frequency.PeriodExamples | ecspi.c:474-484 | 0 Hz and 20000 Hz give 10 ms, 50 Hz gives 20 ms, 1 Hz gives 1 s |
| SpiMessage.FillTxBuffer | ecspi.c:94-95 | the fill loop produces the test pattern: 512 bytes with byte i equal to i mod 256 |
| SpiMessage.BuildMessage | ecspi.c:97-108 | the message has two 192-byte transmit transfers at offsets 0 and 256, chip-select change on the first only |
| SpiMessage.TestMessageSegments | ecspi.c:94-108 | both transfers lie in the buffer without overlapping, and each clocks out the same bytes 0..191 |
| Command.CopyLength | ecspi.c:199 | at most 8 bytes and at most the count are copied, and exactly min(count, 8) |
| Command.CommandBuffer | ecspi.c:198-204 | the command buffer is 16 bytes: the copied bytes of the write, then zeros |
| Command.CommandBufferMatches | ecspi.c:210 | comparing the buffer with a lower-case token reports a match iff the write begins with the token up to case |
| Command.Parse | ecspi.c:209-234 | the two tests on the cleared buffer: a write is "start" iff its first 5 bytes are start up to case; otherwise "stop" iff its first 4 bytes are stop up to case; otherwise nothing |
| Command.ParseLooksAtCopiedBytesOnly | ecspi.c:198-210 | writes that agree on their copied bytes parse alike |
| Command.ParseExamples | ecspi.c:210-231 | "start\n" and "STARTLE" start, "Stop" and "stopwatch" stop, "star", "sto" and the empty write do nothing |
| StatusLine.Format | ecspi.c:162-168 | the status line ends in a newline, has no NUL, and its at most 30 bytes fit the 128-byte buffer |
| StatusLine.ParseFormat | ecspi.c:162-166 | every status line reads back as exactly the flag and two counters it reports |
| StatusLine.FormatParse | ecspi.c:162-166 | every line the reader accepts is the status line of what it read, so the format is one-to-one |
| Driver.Initial | ecspi.c:458-484 | after the clear at load time and the frequency check (before the probe that loading triggers, which is a separate bind event) nothing runs, nothing is busy, both counters are 0, no device is bound and the timer is not armed; the period is 10^9 / clamped frequency ns |
| Driver.CompletionHandler | ecspi.c:76-80 | a completion adds one (mod 2^32) to the callback count and clears busy; nothing else changes |
| Driver.QueueSpiWrite | ecspi.c:82-123 | with no device it returns -ENODEV, submits nothing and changes nothing; otherwise it returns the submission status; the test message goes out and busy is set iff that status is 0; only busy changes |
| Driver.TimerCallback | ecspi.c:125-145 | not running: NORESTART, no change; busy: busy count +1 (mod 2^32), nothing else changes, RESTART; idle: dispatch, RESTART iff a device is bound and the submission is accepted, and only then is a message sent; any message sent is the test message |
| Driver.Write | ecspi.c:189-244 | a fault while copying at least one byte returns -EFAULT and changes nothing (an empty write cannot fault); otherwise the whole count is reported; start is refused when running or busy, else resets both counters, arms and runs; stop disarms and clears running; other input changes nothing; busy, device and period never change |
| Driver.StopIdempotent | ecspi.c:231-234 | stop clears running and the timer, keeps both counters, and a second stop changes nothing |
| Driver.StartTwice | ecspi.c:210-229 | an accepted start reports Running with 0 and 0; a second start is refused as already running and changes nothing |
| Driver.Read | ecspi.c:147-184 | NULL buffer: -EFAULT; offset > 0: 0; fault while copying at least one byte: -EFAULT; otherwise min(line length, count) bytes of the status line, returned as the count and added to the offset |
| Driver.ReadOnce | ecspi.c:156-179 | a full read at offset 0 yields a line that parses back to the state's report, and the next read returns end of data |
| Driver.Probe | ecspi.c:264-273 | binding records the device and changes nothing else |
| Driver.Remove | ecspi.c:275-289 | unbinding drops the device, clears running and, if it was running, cancels the timer; counters and busy are untouched |
| Trace.StepPreservesInv | ecspi.c:76-145 | every event keeps: at most one message in flight, busy iff one is in flight, timer armed only while running |
| Trace.RunPreservesInv | ecspi.c:76-145 | the invariant holds after any sequence of events from a world that satisfies it |
| Trace.ReachableInv | ecspi.c:76-145 | every reachable world satisfies the invariant |
| Trace.BusyTransitions | ecspi.c:76-122 | busy becomes true only by a tick whose dispatch was accepted, and false only by a completion |
| Trace.CounterTransitions | ecspi.c:78-222 | callbacks change only by a completion (+1 mod 2^32) or by a write that reads as start (to 0); busy ticks change only by a tick that found the bus busy (+1 mod 2^32) or by a write that reads as start (to 0) |
| Trace.UnbindStopsEverything | ecspi.c:275-289 | after an unbind no tick can fire, a tick would return NORESTART without change, and a dispatch fails with -ENODEV |
| Trace.IdleRounds | ecspi.c:125-145 | n periods with accepted dispatches completing in time add exactly n completions and no busy ticks |
| Trace.TenPeriods | ecspi.c:125-166 | bind, start at 100 Hz, ten periods with immediate completions: the status line is Running, 10 completions, 0 busy ticks |
| Trace.BusyTickSkips | ecspi.c:131-134 | a second tick before the first completion counts one busy tick and leaves the callbacks alone |
| Trace.StartWithoutDevice | ecspi.c:127-137 | start without a device: the first tick submits nothing and disarms the timer, but running stays set |
| Trace.UnbindMidRun | ecspi.c:279-286 | unbinding a running driver reports Stopped with the counts so far |
| Trace.StopWhileBusy | ecspi.c:231-233 | stop during a transfer prevents ticks, and the pending completion still clears busy |

## Left out

- Module load and unload are not modelled: `ecspi_init` apart from its state clearing and the frequency check, `ecspi_exit`, `ecspi_init_cdev`, `ecspi_init_class`, `ecspi_init_spi`, `add_ecspi_device_to_bus` and `spi_register_driver`. They register the device node and driver with the kernel and unwind them on failure.
- `ecspi_open` is not modelled. It only allocates the 128-byte formatting buffer; its `-ENOMEM` path is allocation.
- Spinlock and semaphore acquisition and the `-ERESTARTSYS` returns are not modelled. Each handler is one atomic event, and interleavings are sequences of events.
- The race between `spi_async` accepting a message and `busy = 1` (ecspi.c:113-120) is not modelled. A completion that lands in between would be overwritten by that store. Atomic handlers cannot express it.
- hrtimer timing is not modelled: `hrtimer_forward_now`, drift and overruns. The timer is an `armed` flag plus tick events, and the period is stored but does not time the events.
- `spi_async` internals are not modelled. Its return value is the parameter `submitStatus`, and an accepted message completes through a later `TransferDone` event.
- `copy_to_user` and `copy_from_user` are reduced to a boolean fault, which takes effect only when at least one byte is copied. `kmalloc`, `kfree` and `printk` are omitted. The refusal reasons that `printk` logs are returned as `WriteOutcome` values instead.
- Driver.Write: returns the byte count as an unbounded integer. It does not model how a count above the `ssize_t` range would convert in the kernel.

=== FILE: ascii.dfy ===
/** The kernel's case folding and its case-insensitive bounded comparison
    `strnicmp`, which the control interface uses to recognise commands. */
module Ascii {
  import opened Words

  /** The kernel's `isupper` over its Latin-1 character table: the ASCII
      capitals 'A'..'Z' and the Latin-1 capitals 0xC0..0xDE except the
      multiplication sign 0xD7. */
  predicate IsUpper(c: byte) {
    (0x41 <= c <= 0x5A) || (0xC0 <= c <= 0xDE && c != 0xD7)
  }

  /** The kernel's `tolower`. */
  function ToLower(c: byte): (r: byte)
    ensures !IsUpper(r)
    ensures r == c || (IsUpper(c) && r as int == c as int + 0x20)
    ensures r == 0 <==> c == 0
  {
    if IsUpper(c) then c + 0x20 else c
  }


  /** The kernel's `strnicmp(s1, s2, len)`: walks both strings for at most
      `len` bytes; stops at the first NUL of either (returning the difference
      of the two bytes there); stops at the first pair that differs after
      folding (returning the difference of the folded bytes); and returns 0
      when all `len` pairs agree. */
  function Strnicmp(s1: seq<byte>, s2: seq<byte>, len: nat): (r: int)
    requires len <= |s1| && len <= |s2|
    ensures -0xFF <= r <= 0xFF
    decreases len
  {
    if len == 0 then 0
    else
      var c1, c2 := s1[0], s2[0];
      if c1 == 0 || c2 == 0 then c1 as int - c2 as int
      else if c1 == c2 then (if len == 1 then 0 else Strnicmp(s1[1..], s2[1..], len - 1))
      else if ToLower(c1) != ToLower(c2) then ToLower(c1) as int - ToLower(c2) as int
      else if len == 1 then 0
      else Strnicmp(s1[1..], s2[1..], len - 1)
  }

  /** No NUL among the first `len` bytes. */
  predicate NoNul(s: seq<byte>, len: nat)
    requires len <= |s|
  {
    forall i :: 0 <= i < len ==> s[i] != 0
  }

  /** Against a pattern with no NUL in its first `len` bytes, `strnicmp`
      reports a match exactly when the first `len` bytes agree after folding. */
  lemma {:induction false} StrnicmpZeroIff(s1: seq<byte>, s2: seq<byte>, len: nat)
    requires len <= |s1| && len <= |s2|
    requires NoNul(s2, len)
    ensures Strnicmp(s1, s2, len) == 0 <==>
            forall i :: 0 <= i < len ==> ToLower(s1[i]) == ToLower(s2[i])
    decreases len
  {
    if len > 0 {
      assert s2[0] != 0;
      if len > 1 && s1[0] != 0 && ToLower(s1[0]) == ToLower(s2[0]) {
        StrnicmpZeroIff(s1[1..], s2[1..], len - 1);
        assert forall i :: 1 <= i < len ==> s1[i] == s1[1..][i - 1] && s2[i] == s2[1..][i - 1];
      }
    }
  }
}

=== FILE: command.dfy ===
/** The command parser of the control device's write side: the first bytes
    written are copied into a cleared buffer and compared, ignoring case,
    with "start" and then with "stop". */
module Command {
  import opened Words
  import opened Ascii

  /** How many bytes of the command buffer are cleared before each copy. */
  const CLEARED_LEN: int := 16
  /** At most this many bytes of a write are copied and examined. */
  const MAX_COPY: int := 8

  const START: seq<byte> := Bytes("start")
  const STOP: seq<byte> := Bytes("stop")

  datatype Command = Start | Stop | Other

  /** The number of bytes copied from a write of `count` bytes. */
  function CopyLength(count: nat): (len: nat)
    ensures len <= count && len <= MAX_COPY
    ensures len == count || len == MAX_COPY
  {
    if count > MAX_COPY then MAX_COPY else count
  }

  /** The command buffer after the clear and the copy: the first
      `CopyLength(|data|)` bytes of the write, then zeros. */
  function CommandBuffer(data: seq<byte>): (buf: seq<byte>)
    ensures |buf| == CLEARED_LEN
    ensures forall i :: 0 <= i < CLEARED_LEN ==>
              buf[i] == (if i < CopyLength(|data|) then data[i] else 0)
  {
    var len := CopyLength(|data|);
    data[..len] + seq(CLEARED_LEN - len, _ => 0)
  }

  /** The write begins with `token`, up to case. */
  predicate BeginsWith(data: seq<byte>, token: seq<byte>) {
    |data| >= |token| && forall i :: 0 <= i < |token| ==> ToLower(data[i]) == token[i]
  }

  lemma CommandBufferMatches(data: seq<byte>, token: seq<byte>)
    requires 1 <= |token| <= 5
    requires forall i :: 0 <= i < |token| ==> token[i] != 0 && ToLower(token[i]) == token[i]
    ensures Strnicmp(CommandBuffer(data), token, |token|) == 0 <==> BeginsWith(data, token)
  {
    var buf := CommandBuffer(data);
    StrnicmpZeroIff(buf, token, |token|);
    if |data| < |token| {
      var k := |data|;
      assert buf[k] == 0 && ToLower(buf[k]) == 0;
    }
  }

  /** The two tests on the cleared command buffer: "start" is tried on the
      first five bytes, then "stop" on the first four. Stated on the bytes
      written: "start" in any case as the first five bytes, otherwise "stop"
      in any case as the first four; a write shorter than a token cannot
      match it, and anything after the token is disregarded. */
  function Parse(data: seq<byte>): (c: Command)
    ensures c == Start <==> BeginsWith(data, START)
    ensures c == Stop <==> !BeginsWith(data, START) && BeginsWith(data, STOP)
    ensures c == Other <==> !BeginsWith(data, START) && !BeginsWith(data, STOP)
  {
    CommandBufferMatches(data, START);
    CommandBufferMatches(data, STOP);
    var buf := CommandBuffer(data);
    if Strnicmp(buf, START, 5) == 0 then Start
    else if Strnicmp(buf, STOP, 4) == 0 then Stop
    else Other
  }

  /** Only the copied bytes matter: two writes that agree on their first
      `MAX_COPY` bytes (or are equal, when shorter) parse alike. */
  lemma {:induction false} ParseLooksAtCopiedBytesOnly(a: seq<byte>, b: seq<byte>)
    requires CopyLength(|a|) == CopyLength(|b|)
    requires a[..CopyLength(|a|)] == b[..CopyLength(|b|)]
    ensures Parse(a) == Parse(b)
  {
    var n := CopyLength(|a|);
    assert forall i :: 0 <= i < n ==> a[i] == a[..n][i] && b[i] == b[..n][i];
    assert CommandBuffer(a) == CommandBuffer(b);
  }

  /** Examples of the permissive matching. */
  lemma ParseExamples()
    ensures Parse(Bytes("start\n")) == Start
    ensures Parse(Bytes("STARTLE")) == Start
    ensures Parse(Bytes("Stop")) == Stop
    ensures Parse(Bytes("stopwatch")) == Stop
    ensures Parse(Bytes("star")) == Other
    ensures Parse(Bytes("sto")) == Other
    ensures Parse([]) == Other
  {
    var go, upper := Bytes("start\n"), Bytes("STARTLE");
    assert BeginsWith(go, START) && BeginsWith(upper, START);
    var halt, watch := Bytes("Stop"), Bytes("stopwatch");
    assert |halt| < |START| && BeginsWith(halt, STOP);
    assert watch[4] as int == 'w' as int && BeginsWith(watch, STOP);
    var star, sto := Bytes("star"), Bytes("sto");
    assert |star| < |START| && star[3] as int == 'r' as int;
    assert |sto| < |STOP|;
  }
}

=== FILE: decimal.dfy ===
/** Unsigned decimal numerals, as the kernel's formatted print writes a `u32`, and their
    reading back. */
module Decimal {
  import opened Wrappers

  predicate IsDigit(c: char) {
    '0' <= c <= '9'
  }

  predicate AllDigits(s: string) {
    forall i :: 0 <= i < |s| ==> IsDigit(s[i])
  }

  function DigitChar(d: nat): (c: char)
    requires d < 10
    ensures IsDigit(c)
    ensures c as int - '0' as int == d
  {
    ('0' as int + d) as char
  }

  function DigitValue(c: char): nat
    requires IsDigit(c)
  {
    c as int - '0' as int
  }

  /** A numeral `%u` can produce: non-empty, digits only, no leading zero
      unless it is "0" itself. */
  predicate Canonical(s: string) {
    |s| >= 1 && AllDigits(s) && (s[0] == '0' ==> |s| == 1)
  }

  /** `%u`: the decimal digits of `n`, most significant first. */
  function Format(n: nat): (s: string)
    ensures Canonical(s)
    ensures s[0] == '0' <==> n == 0
    decreases n
  {
    if n < 10 then [DigitChar(n)] else Format(n / 10) + [DigitChar(n % 10)]
  }

  /** The number a string of digits denotes. */
  function Value(s: string): nat
    requires AllDigits(s)
    decreases |s|
  {
    if s == [] then 0 else Value(s[..|s| - 1]) * 10 + DigitValue(s[|s| - 1])
  }

  /** Reads a canonical numeral; anything else is rejected. */
  function Parse(s: string): Option<nat> {
    if Canonical(s) then Some(Value(s)) else None
  }

  /** 10^k. */
  function Pow10(k: nat): (p: nat)
    ensures p >= 1
  {
    if k == 0 then 1 else 10 * Pow10(k - 1)
  }

  /** Reading back what `%u` wrote gives the number written. */
  lemma {:induction false} ParseFormat(n: nat)
    ensures Parse(Format(n)) == Some(n)
    decreases n
  {
    var s := Format(n);
    if n < 10 {
      assert s[..|s| - 1] == [];
      assert Value(s) == DigitValue(s[0]) == n;
    } else {
      ParseFormat(n / 10);
      assert s[..|s| - 1] == Format(n / 10);
      assert Value(s) == (n / 10) * 10 + n % 10;
    }
  }

  /** Every numeral the parser accepts is exactly what `%u` writes for its
      value, so a numeral and its value determine each other. */
  lemma {:induction false} FormatParse(s: string, n: nat)
    requires Parse(s) == Some(n)
    ensures Format(n) == s
    decreases |s|
  {
    if |s| > 1 {
      var p := s[..|s| - 1];
      var d := DigitValue(s[|s| - 1]);
      assert Canonical(p);
      var m := Value(p);
      FormatParse(p, m);
      assert p[0] == s[0];
      assert m != 0;
      assert n == m * 10 + d;
      assert n / 10 == m && n % 10 == d;
      assert s == p + [s[|s| - 1]];
    }
  }

  /** A number below 10^k needs at most k digits. */
  lemma {:induction false} FormatLength(n: nat, k: nat)
    requires 1 <= k
    requires n < Pow10(k)
    ensures |Format(n)| <= k
    decreases k
  {
    if n >= 10 {
      assert k >= 2;
      FormatLength(n / 10, k - 1);
    }
  }
}

=== FILE: driver.dfy ===
/** The driver's event handlers over its shared state: the SPI completion
    callback, the dispatch of one test message, the periodic timer callback,
    the control device's write (commands) and read (status) sides, and
    device bind/unbind. Each handler is one atomic step from a state to a
    state; locking is not modelled. */
module Driver {
  import opened Words
  import opened Wrappers
  import Frequency
  import opened SpiMessage
  import Command
  import StatusLine

  /** Kernel error numbers the handlers return, negated. */
  const ENODEV: int := 19
  const EFAULT: int := 14

  /** An opaque reference to a bound `spi_device`. */
  type DeviceId = nat

  /** The driver's shared state: the control record's busy flag and two
      counters, the device record's running flag, bound device and timer
      period, and whether the periodic timer is currently armed. */
  datatype State = State(
    running: bool,
    busy: bool,
    spiCallbacks: u32,
    busyCounter: u32,
    device: Option<DeviceId>,
    armed: bool,
    period: Frequency.Period)

  /** The state after the clear at load time and the frequency check:
      everything zero, no device bound, the period derived from the module
      parameter. Loading itself then registers the driver and adds its SPI
      device, which probes it; that bind is the first `Bind` event of a
      trace. */
  function Initial(writeFrequency: int): (s: State)
    ensures s == State(false, false, 0, 0, None, false, s.period)
    ensures Frequency.TotalNs(s.period) == Frequency.NANOSECS_PER_SEC / Frequency.Clamp(writeFrequency)
  {
    State(false, false, 0, 0, None, false, Frequency.TimerPeriod(writeFrequency))
  }

  /** The SPI completion callback. */
  function CompletionHandler(s: State): (s': State)
    ensures s'.spiCallbacks as int == (s.spiCallbacks as int + 1) % U32_LIMIT
    ensures !s'.busy
    ensures s' == s.(spiCallbacks := s'.spiCallbacks, busy := false)
  {
    s.(spiCallbacks := Inc(s.spiCallbacks), busy := false)
  }

  /** What a dispatch did: the new state, the status it returns and the
      message handed to the bus controller, if any. */
  datatype Dispatch = Dispatch(state: State, status: int, sent: Option<Message>)

  /** Refills the transmit buffer, builds the two-transfer message and submits
      it to the bound device; `submitStatus` is what the asynchronous
      submission reports when there is a device to submit to. */
  function QueueSpiWrite(s: State, submitStatus: int): (d: Dispatch)
    ensures s.device.None? ==> d.status == -ENODEV && d.sent.None? && d.state == s
    ensures s.device.Some? ==> d.status == submitStatus
    ensures d.sent.Some? <==> d.status == 0
    ensures d.sent.Some? ==> d.sent.value == TestMessage()
    ensures d.state.busy <==> s.busy || d.status == 0
    ensures d.state == s.(busy := d.state.busy)
  {
    var msg := BuildMessage(TestPattern());
    var status := if s.device.Some? then submitStatus else -ENODEV;
    if status == 0 then Dispatch(s.(busy := true), 0, Some(msg))
    else Dispatch(s, status, None)
  }

  datatype Restart = Restart | NoRestart

  /** What a timer tick did: the new state, whether the timer re-arms, and
      the message dispatched on this tick, if any. */
  datatype Tick = Tick(state: State, verdict: Restart, sent: Option<Message>)

  /** The periodic timer callback. It leaves `armed` to the timer core,
      which re-arms exactly when the verdict is `Restart`. */
  function TimerCallback(s: State, submitStatus: int): (t: Tick)
    ensures t.state.armed == s.armed && t.state.running == s.running
    ensures t.sent.Some? ==> t.sent.value == TestMessage()
    ensures !s.running ==> t.verdict == NoRestart && t.state == s && t.sent.None?
    ensures s.running && s.busy ==>
              && t.verdict == Restart && t.sent.None?
              && t.state.busyCounter as int == (s.busyCounter as int + 1) % U32_LIMIT
              && t.state == s.(busyCounter := t.state.busyCounter)
    ensures s.running && !s.busy ==>
              && (t.verdict == Restart <==> s.device.Some? && submitStatus == 0)
              && (t.sent.Some? <==> t.verdict == Restart)
              && t.state == s.(busy := t.verdict == Restart)
  {
    if !s.running then Tick(s, NoRestart, None)
    else if s.busy then Tick(s.(busyCounter := Inc(s.busyCounter)), Restart, None)
    else
      var d := QueueSpiWrite(s, submitStatus);
      if d.status != 0 then Tick(d.state, NoRestart, None)
      else Tick(d.state, Restart, d.sent)
  }

  /** What a control write did, including the condition the driver only
      logs when it refuses a start. */
  datatype WriteOutcome = Started | AlreadyRunning | WaitingOnSpi | Stopped | Ignored | CopyFault

  datatype WriteResult = WriteResult(state: State, status: int, outcome: WriteOutcome)

  /** The control device's write side. `data` is the caller's buffer (its
      length is the byte count); `copyFault` says whether the caller's memory
      is unreadable. Only a copy of at least one byte can fail: an empty
      write copies nothing and succeeds. */
  function Write(s: State, data: seq<byte>, copyFault: bool): (r: WriteResult)
    ensures r.state.busy == s.busy && r.state.device == s.device && r.state.period == s.period
    ensures copyFault && |data| > 0 ==> r.status == -EFAULT && r.state == s && r.outcome == CopyFault
    ensures !copyFault || |data| == 0 ==> r.status == |data|
    ensures !copyFault || |data| == 0 ==> match Command.Parse(data)
              case Start =>
                if s.running then r.outcome == AlreadyRunning && r.state == s
                else if s.busy then r.outcome == WaitingOnSpi && r.state == s
                else && r.outcome == Started
                     && r.state == s.(running := true, armed := true, spiCallbacks := 0, busyCounter := 0)
              case Stop => r.outcome == Stopped && r.state == s.(running := false, armed := false)
              case Other => r.outcome == Ignored && r.state == s
  {
    if copyFault && Command.CopyLength(|data|) > 0 then WriteResult(s, -EFAULT, CopyFault)
    else
      var status := |data|;
      match Command.Parse(data)
      case Start =>
        if s.running then WriteResult(s, status, AlreadyRunning)
        else if s.busy then WriteResult(s, status, WaitingOnSpi)
        else WriteResult(s.(spiCallbacks := 0, busyCounter := 0, armed := true, running := true), status, Started)
      case Stop => WriteResult(s.(armed := false, running := false), status, Stopped)
      case Other => WriteResult(s, status, Ignored)
  }

  /** The fields the status line reports. */
  function Report(s: State): StatusLine.Fields {
    StatusLine.Fields(s.running, s.spiCallbacks, s.busyCounter)
  }

  /** What a read returned: the status (a byte count or a negated error
      number), the bytes copied out and the new file offset. The bytes are
      kept as characters because they are always a prefix of the status
      line, which is pure ASCII text and is read back by the status-line
      parser; writes, by contrast, carry arbitrary user bytes. */
  datatype ReadResult = ReadResult(status: int, data: string, offset: int)

  /** The control device's read side. `bufferPresent` is false for a NULL
      destination; `copyFault` says whether the destination memory is
      unwritable. Only a copy of at least one byte can fail: a read of zero
      bytes copies nothing and succeeds. */
  function Read(s: State, bufferPresent: bool, count: nat, offset: int, copyFault: bool): (r: ReadResult)
    ensures !bufferPresent ==> r == ReadResult(-EFAULT, [], offset)
    ensures bufferPresent && offset > 0 ==> r == ReadResult(0, [], offset)
    ensures bufferPresent && offset <= 0 && copyFault && count > 0 ==> r == ReadResult(-EFAULT, [], offset)
    ensures bufferPresent && offset <= 0 && (!copyFault || count == 0) ==>
              var line := StatusLine.Format(Report(s));
              && |r.data| == (if count < |line| then count else |line|)
              && r.data == line[..|r.data|]
              && r.status == |r.data|
              && r.offset == offset + |r.data|
  {
    if !bufferPresent then ReadResult(-EFAULT, [], offset)
    else if offset > 0 then ReadResult(0, [], offset)
    else
      var line := StatusLine.Format(Report(s));
      var n := if |line| < count then |line| else count;
      if copyFault && n > 0 then ReadResult(-EFAULT, [], offset)
      else ReadResult(n, line[..n], offset + n)
  }

  /** "stop" is idempotent and never touches the counters. */
  lemma StopIdempotent(s: State, data: seq<byte>, again: seq<byte>)
    requires Command.Parse(data) == Command.Stop && Command.Parse(again) == Command.Stop
    ensures var s1 := Write(s, data, false).state;
            && !s1.running && !s1.armed
            && s1.spiCallbacks == s.spiCallbacks && s1.busyCounter == s.busyCounter
            && Write(s1, again, false).state == s1
  {
  }

  /** A second "start" after an accepted one is refused as already running
      and changes nothing, so the counters it reset stay as they are. */
  lemma StartTwice(s: State, data: seq<byte>)
    requires Command.Parse(data) == Command.Start
    requires !s.running && !s.busy
    ensures var r1 := Write(s, data, false);
            var r2 := Write(r1.state, data, false);
            && r1.outcome == Started && Report(r1.state) == StatusLine.Fields(true, 0, 0)
            && r2.outcome == AlreadyRunning && r2.state == r1.state
  {
  }

  /** A read at offset 0 with room for the whole line returns a line that
      reads back as the current running flag and counters; a read at the
      offset it leaves behind reports end of data. */
  lemma {:induction false} ReadOnce(s: State, count: nat, count': nat)
    requires count >= StatusLine.MAX_LINE
    ensures var r := Read(s, true, count, 0, false);
            && StatusLine.Parse(r.data) == Some(Report(s))
            && r.offset == |r.data| > 0
            && Read(s, true, count', r.offset, false) == ReadResult(0, [], r.offset)
  {
    var line := StatusLine.Format(Report(s));
    assert line[..|line|] == line;
    StatusLine.ParseFormat(Report(s));
  }

  /** Binding a device (`probe`). */
  function Probe(s: State, device: DeviceId): (s': State)
    ensures s'.device == Some(device)
    ensures s' == s.(device := s'.device)
  {
    s.(device := Some(device))
  }

  /** Unbinding the device (`remove`): a running schedule is stopped and its
      timer cancelled, then the device is dropped. */
  function Remove(s: State): (s': State)
    ensures s'.device.None? && !s'.running
    ensures s.running ==> !s'.armed
    ensures !s.running ==> s'.armed == s.armed
    ensures s' == s.(running := false, armed := s'.armed, device := None)
  {
    var s1 := if s.running then s.(running := false, armed := false) else s;
    s1.(device := None)
  }
}

=== FILE: frequency.dfy ===
/** The module parameter `write_frequency` (Hz) and the timer period the
    driver derives from it when it loads. */
module Frequency {
  import opened Words

  const NANOSECS_PER_SEC: int := 1_000_000_000
  const DEFAULT_WRITE_FREQUENCY: int := 100
  const MIN_WRITE_FREQUENCY: int := 1
  const MAX_WRITE_FREQUENCY: int := 10000

  /** The `ktime` the timer is re-armed with: whole seconds plus nanoseconds,
      both held in `u32` fields. */
  datatype Period = Period(sec: u32, ns: u32)

  function TotalNs(p: Period): int {
    p.sec as int * NANOSECS_PER_SEC + p.ns as int
  }

  predicate InRange(f: int) {
    MIN_WRITE_FREQUENCY <= f <= MAX_WRITE_FREQUENCY
  }

  /** The range check at load time: an in-range frequency is kept, anything
      else (zero, negative, too fast) is replaced by the default. */
  function Clamp(f: int): (r: int)
    ensures InRange(r)
    ensures InRange(f) ==> r == f
    ensures !InRange(f) ==> r == DEFAULT_WRITE_FREQUENCY
  {
    if f < MIN_WRITE_FREQUENCY || f > MAX_WRITE_FREQUENCY then DEFAULT_WRITE_FREQUENCY else f
  }

  /** The period stored for the timer. The driver special-cases 1 Hz as one
      whole second and otherwise stores only nanoseconds (the other field stays
      at the zero it was cleared to); either way the period is
      10^9 / frequency nanoseconds, rounded down, in normalised form. */
  function TimerPeriod(writeFrequency: int): (p: Period)
    ensures TotalNs(p) == NANOSECS_PER_SEC / Clamp(writeFrequency)
    ensures p.ns as int < NANOSECS_PER_SEC
    ensures p.sec == 0 || p == Period(1, 0)
    ensures NANOSECS_PER_SEC / MAX_WRITE_FREQUENCY <= TotalNs(p) <= NANOSECS_PER_SEC
  {
    var f := Clamp(writeFrequency);
    if f == 1 then
      Period(1, 0)
    else
      DivAntitone(NANOSECS_PER_SEC, 2, f);
      DivAntitone(NANOSECS_PER_SEC, f, MAX_WRITE_FREQUENCY);
      Period(0, (NANOSECS_PER_SEC / f) as u32)
  }

  /** Dividing by more never gives more. */
  lemma DivAntitone(n: nat, a: int, b: int)
    requires 0 < a <= b
    ensures n / b <= n / a
  {
    var q := n / b;
    MulMonotone(q, a, b);
    QuotientBound(n, a, q);
  }

  lemma MulMonotone(q: nat, a: int, b: int)
    requires 0 < a <= b
    ensures q * a <= q * b
  {
  }

  /** Any q with q * a <= n is at most the quotient n / a. */
  lemma QuotientBound(n: nat, a: int, q: nat)
    requires a > 0 && q * a <= n
    ensures q <= n / a
  {
    var r := n / a;
    assert n == r * a + n % a;
    if q > r {
      MulMonotone(a, r + 1, q);
      assert false;
    }
  }

  /** A faster frequency never gives a longer period. */
  lemma PeriodAntitone(f: int, g: int)
    requires InRange(f) && InRange(g) && f <= g
    ensures TotalNs(TimerPeriod(g)) <= TotalNs(TimerPeriod(f))
  {
    DivAntitone(NANOSECS_PER_SEC, f, g);
  }

  /** Examples: 0 Hz and 20000 Hz both fall back to
      the 100 Hz period of 10 ms, 50 Hz gives 20 ms, 1 Hz gives one second. */
  lemma PeriodExamples()
    ensures TimerPeriod(0) == TimerPeriod(20000) == Period(0, 10_000_000)
    ensures TimerPeriod(50) == Period(0, 20_000_000)
    ensures TimerPeriod(1) == Period(1, 0)
  {
  }
}

=== FILE: spi_message.dfy ===
/** The test transfer the driver submits on every dispatch: a 512-byte
    transmit buffer refilled with a counting pattern, sent as two 192-byte
    transfers with a chip-select pulse between them. */
module SpiMessage {
  import opened Words

  const SPI_BUFF_SIZE: int := 512
  const SEGMENT_LEN: int := 192
  const SECOND_SEGMENT_OFFSET: int := 256

  /** One `spi_transfer`: transmit-only (its receive buffer is NULL), `len`
      bytes of the transmit buffer starting at `txOffset`; `csChange` asks
      the controller to deselect the chip after this transfer. */
  datatype Transfer = Transfer(txOffset: nat, len: nat, csChange: bool)

  /** One `spi_message`: the transmit buffer it points into and its
      transfers, in the order they are appended. */
  datatype Message = Message(txBuffer: seq<byte>, transfers: seq<Transfer>)

  /** The buffer contents after a fill: each of the 512 slots holds its own
      index, stored into a byte. */
  function TestPattern(): seq<byte> {
    seq(SPI_BUFF_SIZE, i => TruncateToByte(i))
  }

  /** The fill loop run before every dispatch: it walks the 512 slots in
      order and stores each index into its slot, truncated to a byte. The
      result is the test pattern, so byte i holds i modulo 256. */
  method FillTxBuffer() returns (buf: seq<byte>)
    ensures buf == TestPattern()
    ensures |buf| == SPI_BUFF_SIZE
    ensures forall i :: 0 <= i < |buf| ==> buf[i] as int == i % 256
  {
    buf := [];
    var i := 0;
    while i < SPI_BUFF_SIZE
      invariant 0 <= i <= SPI_BUFF_SIZE
      invariant buf == TestPattern()[..i]
    {
      buf := buf + [TruncateToByte(i)];
      i := i + 1;
    }
  }

  /** The two transfers over a filled buffer. */
  function BuildMessage(buf: seq<byte>): (m: Message)
    requires |buf| == SPI_BUFF_SIZE
    ensures WellFormed(m)
    ensures m.txBuffer == buf
  {
    Message(buf, [Transfer(0, SEGMENT_LEN, true), Transfer(SECOND_SEGMENT_OFFSET, SEGMENT_LEN, false)])
  }

  /** The message every dispatch submits. */
  function TestMessage(): Message {
    BuildMessage(TestPattern())
  }

  /** The layout every dispatch uses: two 192-byte transfers at offsets 0 and
      256 of a 512-byte buffer, chip-select pulsed after the first only. */
  predicate WellFormed(m: Message) {
    && |m.txBuffer| == SPI_BUFF_SIZE
    && |m.transfers| == 2
    && m.transfers[0] == Transfer(0, SEGMENT_LEN, true)
    && m.transfers[1] == Transfer(SECOND_SEGMENT_OFFSET, SEGMENT_LEN, false)
  }

  /** Every transfer lies inside the buffer. */
  predicate InBounds(m: Message) {
    forall k :: 0 <= k < |m.transfers| ==>
      m.transfers[k].txOffset + m.transfers[k].len <= |m.txBuffer|
  }

  /** The bytes transfer `k` clocks out. */
  function Segment(m: Message, k: nat): seq<byte>
    requires k < |m.transfers| && InBounds(m)
  {
    m.txBuffer[m.transfers[k].txOffset .. m.transfers[k].txOffset + m.transfers[k].len]
  }

  /** The bytes 0, 1, ..., n - 1. */
  predicate IsRamp(s: seq<byte>, n: nat) {
    |s| == n && forall j :: 0 <= j < n ==> s[j] as int == j
  }

  /** The two transfers are disjoint slices of the buffer, and because the
      second starts at 256 both carry the same payload 0, 1, ..., 191; the
      bytes between 192 and 255 and after 447 are filled but never sent. */
  lemma {:induction false} TestMessageSegments()
    ensures WellFormed(TestMessage()) && InBounds(TestMessage())
    ensures Segment(TestMessage(), 0) == Segment(TestMessage(), 1)
    ensures IsRamp(Segment(TestMessage(), 0), SEGMENT_LEN)
    ensures TestMessage().transfers[0].txOffset + TestMessage().transfers[0].len
            <= TestMessage().transfers[1].txOffset
  {
    var m := TestMessage();
    var s0, s1 := Segment(m, 0), Segment(m, 1);
    forall j | 0 <= j < SEGMENT_LEN
      ensures s0[j] as int == j && s1[j] as int == j
    {
      assert s0[j] == m.txBuffer[j];
      assert s1[j] == m.txBuffer[256 + j];
      assert (256 + j) % 256 == j;
    }
  }
}

=== FILE: status_line.dfy ===
/** The status line the control device's read side produces,
    `"<Running|Stopped>|<callbacks>|<busy ticks>\n"`, and its reading back. */
module StatusLine {
  import opened Words
  import opened Wrappers
  import Decimal

  /** The size of the driver's formatting buffer (`USER_BUFF_SIZE`). */
  const USER_BUFF_SIZE: int := 128
  /** The longest line: both counters at 4294967295. */
  const MAX_LINE: int := 30

  /** What a status line reports. */
  datatype Fields = Fields(running: bool, callbacks: u32, busyCounter: u32)

  function StateWord(running: bool): string {
    if running then "Running" else "Stopped"
  }

  /** The status line: the state word, a bar, the completion count in
      decimal, a bar, the busy-tick count in decimal, and a newline. */
  function Format(f: Fields): (line: string)
    ensures |line| <= MAX_LINE < USER_BUFF_SIZE
    ensures |line| >= 12 && line[|line| - 1] == '\n'
    ensures '\0' !in line
  {
    Decimal.FormatLength(f.callbacks as nat, 10);
    Decimal.FormatLength(f.busyCounter as nat, 10);
    StateWord(f.running) + "|" + Decimal.Format(f.callbacks as nat) + "|"
      + Decimal.Format(f.busyCounter as nat) + "\n"
  }

  /** The position of the first `c` in `s`, or `|s|` when there is none. */
  function IndexOf(s: string, c: char): (i: nat)
    ensures i <= |s|
    ensures i < |s| ==> s[i] == c
    ensures forall j :: 0 <= j < i ==> s[j] != c
    decreases |s|
  {
    if s == [] then 0
    else if s[0] == c then 0
    else 1 + IndexOf(s[1..], c)
  }

  /** Reads the two counters of a status line: two canonical numerals that
      fit in 32 bits, separated by the first bar. */
  function ParseCounters(body: string): Option<(u32, u32)> {
    var i := IndexOf(body, '|');
    if i == |body| then None
    else
      match (Decimal.Parse(body[..i]), Decimal.Parse(body[i + 1..]))
      case (Some(c), Some(b)) =>
        if c < U32_LIMIT && b < U32_LIMIT then Some((c as u32, b as u32)) else None
      case _ => None
  }

  /** Reads a status line back: the state word and a bar, the two counters,
      and a newline. */
  function Parse(line: string): Option<Fields> {
    if |line| < 9 || line[|line| - 1] != '\n' then None
    else
      var head := line[..8];
      if head != "Running|" && head != "Stopped|" then None
      else
        match ParseCounters(line[8..|line| - 1])
        case Some((c, b)) => Some(Fields(head == "Running|", c, b))
        case None => None
  }

  lemma {:induction false} ParseCountersFormat(c: u32, b: u32)
    ensures ParseCounters(Decimal.Format(c as nat) + "|" + Decimal.Format(b as nat)) == Some((c, b))
  {
    var d1, d2 := Decimal.Format(c as nat), Decimal.Format(b as nat);
    var body := d1 + "|" + d2;
    assert body[|d1|] == '|';
    assert forall j :: 0 <= j < |d1| ==> body[j] == d1[j] && Decimal.IsDigit(d1[j]);
    assert IndexOf(body, '|') == |d1|;
    assert body[..|d1|] == d1;
    assert body[|d1| + 1..] == d2;
    Decimal.ParseFormat(c as nat);
    Decimal.ParseFormat(b as nat);
  }

  lemma {:induction false} FormatParseCounters(body: string, c: u32, b: u32)
    requires ParseCounters(body) == Some((c, b))
    ensures body == Decimal.Format(c as nat) + "|" + Decimal.Format(b as nat)
  {
    var i := IndexOf(body, '|');
    Decimal.FormatParse(body[..i], c as nat);
    Decimal.FormatParse(body[i + 1..], b as nat);
    assert body == body[..i] + "|" + body[i + 1..];
  }

  /** Every status line reads back as the fields it was formatted from. */
  lemma {:induction false} ParseFormat(f: Fields)
    ensures Parse(Format(f)) == Some(f)
  {
    var line := Format(f);
    var body := Decimal.Format(f.callbacks as nat) + "|" + Decimal.Format(f.busyCounter as nat);
    assert line == StateWord(f.running) + "|" + body + "\n";
    assert line[..8] == StateWord(f.running) + "|";
    assert line[8..|line| - 1] == body;
    assert "Stopped|"[0] != "Running|"[0];
    ParseCountersFormat(f.callbacks, f.busyCounter);
  }

  /** A line cut into its first eight characters, the middle and its last character. */
  lemma SplitLine(line: string)
    requires |line| >= 9
    ensures line == line[..8] + line[8..|line| - 1] + [line[|line| - 1]]
  {
  }

  /** The state word read from a line's head. */
  lemma HeadWord(head: string, running: bool)
    requires head == "Running|" || head == "Stopped|"
    requires running == (head == "Running|")
    ensures head == StateWord(running) + "|"
  {
  }

  /** What an accepted line consists of. */
  lemma ParseShape(line: string, f: Fields)
    requires Parse(line) == Some(f)
    ensures |line| >= 9 && line[|line| - 1] == '\n'
    ensures line[..8] == "Running|" || line[..8] == "Stopped|"
    ensures f.running == (line[..8] == "Running|")
    ensures ParseCounters(line[8..|line| - 1]) == Some((f.callbacks, f.busyCounter))
  {
  }

  /** A line whose parts are the state word, the two numerals and a newline
      is the status line of those fields. */
  lemma Reassemble(line: string, f: Fields)
    requires |line| >= 9 && line[|line| - 1] == '\n'
    requires line[..8] == StateWord(f.running) + "|"
    requires line[8..|line| - 1] == Decimal.Format(f.callbacks as nat) + "|" + Decimal.Format(f.busyCounter as nat)
    ensures Format(f) == line
  {
    SplitLine(line);
  }

  /** Every line the reader accepts is exactly the formatting of what it
      read, so formatting is one-to-one and the reader is its inverse. */
  lemma {:induction false} FormatParse(line: string, f: Fields)
    requires Parse(line) == Some(f)
    ensures Format(f) == line
  {
    ParseShape(line, f);
    FormatParseCounters(line[8..|line| - 1], f.callbacks, f.busyCounter);
    HeadWord(line[..8], f.running);
    Reassemble(line, f);
  }
}

=== FILE: trace.dfy ===
/** The driver together with its environment as a transition system: the
    timer core (armed or not), the bus controller (messages accepted but not
    yet completed), the control device's user and the bus binding. Any
    interleaving of the contexts is a sequence of atomic events. */
module Trace {
  import opened Words
  import opened Wrappers
  import opened Driver
  import Command
  import StatusLine
  import Decimal
  import SpiMessage

  /** The driver state and the number of messages the bus controller has
      accepted whose completion callback has not run yet. */
  datatype World = World(drv: State, inFlight: nat)

  datatype Event =
    | TimerFires(submitStatus: int)  // the armed timer expires; `submitStatus` is the bus's answer if it dispatches
    | TransferDone                   // the bus controller completes the oldest accepted message
    | ControlWrite(data: seq<byte>, copyFault: bool)
    | Bind(device: DeviceId)
    | Unbind

  function Init(writeFrequency: int): World {
    World(Initial(writeFrequency), 0)
  }

  /** One event, or `None` when the environment cannot produce it: the timer
      only fires while armed, and a completion needs an accepted message. */
  function Step(w: World, e: Event): Option<World> {
    match e
    case TimerFires(st) =>
      if !w.drv.armed then None
      else
        var t := TimerCallback(w.drv, st);
        Some(World(t.state.(armed := t.verdict == Restart),
                   w.inFlight + (if t.sent.Some? then 1 else 0)))
    case TransferDone =>
      if w.inFlight == 0 then None
      else Some(World(CompletionHandler(w.drv), w.inFlight - 1))
    case ControlWrite(data, fault) => Some(w.(drv := Driver.Write(w.drv, data, fault).state))
    case Bind(d) => Some(w.(drv := Probe(w.drv, d)))
    case Unbind => Some(w.(drv := Remove(w.drv)))
  }

  /** A sequence of events from `w`, or `None` if one of them cannot happen. */
  function Run(w: World, es: seq<Event>): Option<World>
    decreases |es|
  {
    if es == [] then Some(w)
    else match Step(w, es[0])
      case None => None
      case Some(w') => Run(w', es[1..])
  }

  ghost predicate Reachable(writeFrequency: int, w: World) {
    exists es :: Run(Init(writeFrequency), es) == Some(w)
  }

  /** The invariant of every reachable world: at most one message is in
      flight, `busy` is set exactly while one is, and the timer is armed only
      while the driver is running. */
  predicate Inv(w: World) {
    && w.inFlight <= 1
    && (w.drv.busy <==> w.inFlight == 1)
    && (w.drv.armed ==> w.drv.running)
  }

  lemma StepPreservesInv(w: World, e: Event)
    requires Inv(w)
    requires Step(w, e).Some?
    ensures Inv(Step(w, e).value)
  {
  }

  /** Every world reachable from the initial one satisfies `Inv`. */
  lemma {:induction false} RunPreservesInv(w: World, es: seq<Event>)
    requires Inv(w)
    requires Run(w, es).Some?
    ensures Inv(Run(w, es).value)
    decreases |es|
  {
    if es != [] {
      StepPreservesInv(w, es[0]);
      RunPreservesInv(Step(w, es[0]).value, es[1..]);
    }
  }

  lemma ReachableInv(writeFrequency: int, w: World)
    requires Reachable(writeFrequency, w)
    ensures Inv(w)
  {
    var es :| Run(Init(writeFrequency), es) == Some(w);
    RunPreservesInv(Init(writeFrequency), es);
  }

  /** `busy` is raised only by a timer tick whose dispatch the bus accepted,
      and lowered only by a completion. */
  lemma BusyTransitions(w: World, e: Event)
    requires Step(w, e).Some?
    ensures var w' := Step(w, e).value;
            && (!w.drv.busy && w'.drv.busy ==> e.TimerFires? && w'.inFlight == w.inFlight + 1)
            && (w.drv.busy && !w'.drv.busy ==> e.TransferDone?)
  {
  }

  /** A control write that reaches the command parser and reads as "start". */
  predicate AcceptedStart(e: Event) {
    && e.ControlWrite?
    && (!e.copyFault || |e.data| == 0)
    && Command.Parse(e.data) == Command.Start
  }

  /** The completion counter moves only on a completion (by one, modulo
      2^32) or on an accepted "start" (back to zero); the busy-tick counter
      only on a tick that found the bus busy (by one) or on an accepted
      "start". */
  lemma CounterTransitions(w: World, e: Event)
    requires Step(w, e).Some?
    ensures var w' := Step(w, e).value;
            && (w'.drv.spiCallbacks != w.drv.spiCallbacks ==>
                  || (e.TransferDone? && w'.drv.spiCallbacks == Inc(w.drv.spiCallbacks))
                  || (AcceptedStart(e) && w'.drv.spiCallbacks == 0))
            && (w'.drv.busyCounter != w.drv.busyCounter ==>
                  || (e.TimerFires? && w.drv.busy && w'.drv.busyCounter == Inc(w.drv.busyCounter))
                  || (AcceptedStart(e) && w'.drv.busyCounter == 0))
  {
  }

  /** After an unbind in a reachable world the timer cannot fire again, and a
      tick or dispatch attempted against that state would stop or fail with
      -ENODEV without submitting anything. */
  lemma UnbindStopsEverything(w: World, st: int)
    requires Inv(w)
    ensures var w' := Step(w, Unbind).value;
            && Step(w', TimerFires(st)).None?
            && TimerCallback(w'.drv, st).verdict == NoRestart
            && TimerCallback(w'.drv, st).state == w'.drv
            && QueueSpiWrite(w'.drv, st).status == -ENODEV
            && QueueSpiWrite(w'.drv, st).sent.None?
            && QueueSpiWrite(w'.drv, st).state.busy == w.drv.busy
            && w'.drv.spiCallbacks == w.drv.spiCallbacks
            && w'.drv.busyCounter == w.drv.busyCounter
  {
  }

  lemma {:induction false} RunAppend(w: World, xs: seq<Event>, ys: seq<Event>)
    ensures Run(w, xs + ys) == (match Run(w, xs) case None => None case Some(v) => Run(v, ys))
    decreases |xs|
  {
    if xs == [] {
      assert xs + ys == ys;
    } else {
      assert (xs + ys)[0] == xs[0];
      assert (xs + ys)[1..] == xs[1..] + ys;
      if Step(w, xs[0]).Some? {
        RunAppend(Step(w, xs[0]).value, xs[1..], ys);
      }
    }
  }

  /** Two events in a row. */
  lemma RunPair(w: World, a: Event, b: Event)
    ensures Run(w, [a, b]) == (match Step(w, a) case None => None case Some(v) => Step(v, b))
  {
    assert [a, b][1..] == [b];
    assert [b][1..] == [];
    if Step(w, a).Some? && Step(Step(w, a).value, b).Some? {
      assert Run(Step(Step(w, a).value, b).value, []) == Step(Step(w, a).value, b);
    }
  }

  /** `n` periods in which each dispatch completes before the next tick. */
  function Rounds(n: nat): seq<Event> {
    if n == 0 then [] else [TimerFires(0), TransferDone] + Rounds(n - 1)
  }

  /** A running, idle, bound driver whose every dispatch is accepted and
      completes within the period counts exactly one completion per period and
      no busy ticks. */
  lemma {:induction false} IdleRounds(w: World, n: nat)
    requires w.drv.running && w.drv.armed && !w.drv.busy && w.drv.device.Some? && w.inFlight == 0
    requires w.drv.spiCallbacks as int + n < U32_LIMIT
    ensures Run(w, Rounds(n)) == Some(w.(drv := w.drv.(spiCallbacks := (w.drv.spiCallbacks as int + n) as u32)))
    decreases n
  {
    if n > 0 {
      var w1 := Step(w, TimerFires(0)).value;
      var w2 := Step(w1, TransferDone).value;
      assert w2 == w.(drv := w.drv.(spiCallbacks := w.drv.spiCallbacks + 1));
      assert Run(w, [TimerFires(0), TransferDone]) == Some(w2);
      RunAppend(w, [TimerFires(0), TransferDone], Rounds(n - 1));
      IdleRounds(w2, n - 1);
    }
  }

  /** Start with a bound device at 100 Hz and let ten periods pass with
      instantaneous completions: the status line reads "Running|10|0". */
  lemma TenPeriods(device: DeviceId)
    ensures var pre := [Bind(device), ControlWrite(Bytes("start"), false)];
            && Run(Init(100), pre + Rounds(10)).Some?
            && StatusLine.Format(Report(Run(Init(100), pre + Rounds(10)).value.drv)) == "Running|10|0\n"
  {
    var pre := [Bind(device), ControlWrite(Bytes("start"), false)];
    RunPair(Init(100), Bind(device), ControlWrite(Bytes("start"), false));
    var w0 := Run(Init(100), pre).value;
    assert w0.drv.running && w0.drv.armed && w0.drv.spiCallbacks == 0 && w0.drv.busyCounter == 0;
    RunAppend(Init(100), pre, Rounds(10));
    IdleRounds(w0, 10);
    TenStatus();
  }

  lemma TenStatus()
    ensures StatusLine.Format(StatusLine.Fields(true, 10, 0)) == "Running|10|0\n"
  {
    assert Decimal.Format(10) == "10";
    assert Decimal.Format(0) == "0";
  }

  /** Two ticks without the first one's completion in between: the second
      counts a busy tick and leaves the completion counter alone. */
  lemma BusyTickSkips(w: World)
    requires Inv(w)
    requires w.drv.running && w.drv.armed && !w.drv.busy && w.drv.device.Some?
    ensures var w2 := Run(w, [TimerFires(0), TimerFires(0)]);
            && w2.Some?
            && w2.value.drv.busyCounter == Inc(w.drv.busyCounter)
            && w2.value.drv.spiCallbacks == w.drv.spiCallbacks
            && w2.value.inFlight == 1 && w2.value.drv.busy
  {
    RunPair(w, TimerFires(0), TimerFires(0));
  }

  /** Starting with no device bound: the first tick fails to dispatch with
      nothing submitted and disarms the timer, so no further tick comes. The
      running flag, however, stays set: the status keeps reporting "Running"
      and another "start" is refused as already running. */
  lemma StartWithoutDevice(f: int, st: int)
    ensures var w := Run(Init(f), [ControlWrite(Bytes("start"), false), TimerFires(st)]);
            && w.Some?
            && !w.value.drv.busy && w.value.inFlight == 0 && !w.value.drv.armed
            && Step(w.value, TimerFires(st)).None?
            && w.value.drv.running
            && Driver.Write(w.value.drv, Bytes("start"), false).outcome == AlreadyRunning
  {
    RunPair(Init(f), ControlWrite(Bytes("start"), false), TimerFires(st));
  }

  /** Unbinding mid-run stops the schedule and the status then reports
      "Stopped" with the counts so far. */
  lemma UnbindMidRun(w: World)
    requires w.drv.running
    ensures var w' := Step(w, Unbind).value;
            && Report(w'.drv) == StatusLine.Fields(false, w.drv.spiCallbacks, w.drv.busyCounter)
            && !w'.drv.armed && w'.drv.device.None?
  {
  }

  /** Stopping while a message is in flight still lets its completion
      arrive and clear `busy`, and no tick can follow. */
  lemma StopWhileBusy(w: World)
    requires Inv(w) && w.drv.busy
    ensures var w1 := Step(w, ControlWrite(Bytes("stop"), false)).value;
            && !w1.drv.running && !w1.drv.armed && w1.drv.busy
            && Step(w1, TimerFires(0)).None?
            && Step(w1, TransferDone).Some?
            && !Step(w1, TransferDone).value.drv.busy
  {
  }
}

=== FILE: words.dfy ===
/** The fixed-width machine integers the driver stores, with their
    wrap-around written out explicitly. */
module Words {

  /** One more than the largest `u32`. */
  const U32_LIMIT: int := 0x1_0000_0000

  /** An unsigned 8-bit value: one element of a `u8`/`char` buffer. */
  newtype byte = x: int | 0 <= x < 0x100

  /** The kernel's `u32`, used for the busy flag, both counters and the timer period. */
  newtype u32 = x: int | 0 <= x < 0x1_0000_0000

  /** `x++` on a `u32`: one more, modulo 2^32. */
  function Inc(x: u32): (r: u32)
    ensures r as int == (x as int + 1) % U32_LIMIT
  {
    if x == 0xFFFF_FFFF then 0 else x + 1
  }

  /** The implicit conversion of an `int` into a `u8` slot, as the fill loop does:
      the unique byte congruent to `i` modulo 256. */
  function TruncateToByte(i: int): (b: byte)
    ensures (i - b as int) % 0x100 == 0
  {
    (i % 0x100) as byte
  }

  /** The bytes of an ASCII/Latin-1 string literal. */
  function Bytes(s: string): (r: seq<byte>)
    requires forall i :: 0 <= i < |s| ==> s[i] as int < 0x100
    ensures |r| == |s|
    ensures forall i :: 0 <= i < |s| ==> r[i] as int == s[i] as int
  {
    seq(|s|, i requires 0 <= i < |s| => s[i] as int as byte)
  }
}

=== FILE: wrappers.dfy ===
/** An optional value, as used for the possibly absent bound device and for
    the result of a parse. */
module Wrappers {

  datatype Option<+T> = None | Some(value: T)
}
